=== FILE: README.md ===
# thesmartpath path-planning core, modelled in Dafny

This project models the pure sequence and arithmetic logic of a field-coverage
path planner for seeders and sprinklers. It covers four parts:

- **Boundary loop.** `build_path` insets the field boundary by the working
  margin. It then drives from the entry point onto the inset, once around its
  corners, and back to the start point. The earlier variant in
  `planning/border_path.py` stops at the last corner instead.
- **Perimeter routing.** `__nearest_polygon_points` finds the first pair of
  ring vertices whose segment passes through a point.
  `polygon_perimeter_between_points` walks the ring by index between two
  such anchors and adds up the length as it goes.
- **UTM grid zones.** `zone` gives the zone number, including the Norway 32V
  and Svalbard 31X/33X/35X/37X exceptions. `letter` gives the latitude band
  C–X, which has no I or O and a 12°-tall X band. `project` and `unproject`
  apply the 10 000 000 m false northing of the southern hemisphere, following
  chapter 2 of DMA/NIMA TM 8358.2.
- **Sweep-angle experiment.** `shift` rotates a vertex list. `find_best`
  picks the shortest coverage line over 90 sampled angles, and on a tie the
  smallest angle.

Foreign calls are function-typed parameters, so the model says nothing about
their internals:

- shapely's `buffer` is `Offset.Buffer`.
- `nearest_points` is `BorderPath.NearestOnRing`.
- `LineString.distance` is `Perimeter.SegmentDistance`.
- `Point.distance` is `Geometry.Metric`. Euclidean distance needs a square
  root, which Dafny's reals do not have.
- The pyproj forward and inverse projections are `Utm.Projection` and
  `Utm.InverseProjection`.
- The coverage-line producer is a `real -> real` length function.

Python floats are modelled as exact reals. Python's `int()` is modelled as
truncation toward zero (`Utm.Trunc`).

Files: `outcomes.dfy` (Option and Result), `geometry.dfy` (points, path length,
`list.index`), `offset.dfy`, `border_path.dfy`, `planning_border_path.dfy`,
`perimeter.dfy`, `utm.dfy`, `coverage_plan.dfy`.

Two behaviours of the perimeter walk are worth stating plainly:

- When both anchors are the same vertex, the loop body never runs and the
  walk returns `[p1, start1, p2]` with that path's length.
- The docstring of `polygon_perimeter_between_points`
  (src/border_path.py:95-98) promises the shorter of the two arcs. The code
  only walks forward by index.

## Model

| member | source | states |
|---|---|---|
| Geometry.IndexOf | src/border_path.py:108-112 | `poly.index(v)`: the returned index holds `v`, and no smaller index does |
| Offset.ShrinkOrSwell | src/border_path.py:29-53 | an empty buffer result gives `[]`, and a polygon result gives its exterior ring; with a buffer that yields closed rings, the result is `[]` or a closed ring |
| Offset.ShrinkIsNegatedSwell | planning/border_path.py:37-40 | shrinking by `d` equals swelling by `-d` and vice versa, since the flag only picks the sign of the buffer distance |
| BorderPath.BuildPath | src/border_path.py:186-196 | the path is empty exactly when the inset is empty; otherwise it has `len(inner)+2` points, starts at the entry point, has the start point second and last, and has the inset's corners in ring order between them |
| BorderPath.LoopRecoversInset | src/border_path.py:196 | removing the entry leg and the closing point, then re-closing the corners, gives back exactly the inset ring |
| BorderPath.LoopLength | src/border_path.py:194-196 | the loop's length is the entry leg, plus the leg onto the ring, plus the corners, plus the leg from the last corner back to the start |
| PlanningBorderPath.BuildPathUnclosed | planning/border_path.py:80-89 | the path is empty exactly when the inset is empty; otherwise it has `len(inner)+1` points: the entry point, the start point, then the inset's corners in order with the closing duplicate dropped |
| PlanningBorderPath.ClosedLoopExtendsUnclosed | planning/border_path.py:84-89 | the later `build_path` is the earlier one with the start point appended, and `[]` when the earlier one is `[]` |
| PlanningBorderPath.UnclosedEndsAtLastCorner | planning/border_path.py:89 | the earlier loop ends at the inset's last corner; unlike the later variant, the start point is not appended |
| PlanningBorderPath.ClosingLegLength | src/border_path.py:196 | closing the loop adds exactly the leg from the last corner back to the start point |
| Perimeter.NearestPolygonPoints | src/border_path.py:74-88 | returns `None` exactly when no pair of `poly[:-1]` × `poly[1:]` is within 1e-8 of the point; otherwise returns the first such pair in nested-loop order |
| Perimeter.Anchors | src/border_path.py:105-112 | the walk's start and end indices are the `poly.index` of each pair's first point: each holds that point and no smaller index does; both lie below the last index; they are missing exactly when either point has no pair |
| Perimeter.WalkAsWritten | src/border_path.py:115-132 | the walk fails with an index error exactly when the start index exceeds the end index; otherwise the path is `[p1] + poly[s..e] + [p2]`, and the running length equals the path's length |
| Perimeter.PerimeterBetweenAsWritten | src/border_path.py:91-134 | a point off the ring gives an error; otherwise the as-written walk between the anchors, which fails with an index error exactly when the start index exceeds the end index, and otherwise has the same path shape |
| Perimeter.WalkForward | src/border_path.py:118-132 | the wrapping walk never fails; its path is `[p1]` + the forward arc from `s` to `e` + `[p2]`, it is `[p1, poly[s], p2]` when `s == e`, and its length is the path's length |
| Perimeter.PerimeterBetween | src/border_path.py:91-134 | routing with the wrapping walk fails only when a point is off the ring; otherwise it returns the forward-arc path starting `[p1, start1]`, and that path's length |
| Perimeter.ArcsComplement | src/border_path.py:121-130 | the forward arcs `i→j` and `j→i` together cover the list's length plus the wrap-around segment |
| Perimeter.ArcsSumToPerimeter | src/border_path.py:121-130 | on a closed ring, the two forward arcs sum to the ring's perimeter |
| PerimeterExample.ExampleTakesFailingBranch | src/border_path.py:236-246 | in the module's own example, (4, 0) matches the non-adjacent corner pair 0 and 3, and the anchors are 1 and 0, so the walk takes the failing branch |
| Utm.Trunc | src/utm.py:19 | Python `int()` truncates toward zero |
| Utm.Zone | src/utm.py:8-19 | gives 32 in the Norway box; gives 31, 33, 35 or 37 (always odd) in the Svalbard box, split at 9°, 21° and 33°; otherwise gives the 6°-wide zone holding the longitude; lies in 1..60 for longitudes in [-180, 180) |
| Utm.BandIndex | src/utm.py:23 | for latitudes in [-80, 84] the index lies in 0..20, and it is the 8° band holding the latitude |
| Utm.Letter | src/utm.py:22-23 | for latitudes in [-80, 84] the result is the letter of the 8° band holding the latitude, between C and X; it is never I or O; it is X for [72, 84]; it raises from 88° upward |
| Utm.LetterMonotone | src/utm.py:23 | band letters do not decrease as latitude grows |
| Utm.SouthernBandsBeforeN | src/utm.py:37-38 | for latitudes in [-80, 84], the letter is before N exactly in the southern hemisphere |
| Utm.SouthPoleWrapsToX | src/utm.py:23 | at 90° S, the negative index wraps and the letter is X |
| Utm.ShiftNorthing | src/utm.py:32-33 | the northing is shifted by exactly the false northing iff it is negative, and is then non-negative whenever it was ≥ -10 000 000 |
| Utm.UnshiftNorthing | src/utm.py:38-40 | the false northing is removed exactly when the band is before N |
| Utm.Project | src/utm.py:26-34 | fails exactly when `letter` raises; otherwise returns the zone, the band, the raw easting and the shifted northing |
| Utm.Unproject | src/utm.py:37-42 | the point count and every easting are unchanged; every northing loses exactly 10 000 000 iff the band is before N; each output is the inverse projection of the adjusted point |
| Utm.NorthingRoundTrip | src/utm.py:32-40 | removing the false northing by band undoes adding it by sign, when the raw sign matches the hemisphere |
| Utm.ProjectUnprojectRoundTrip | src/utm.py:26-42 | `unproject` after `project` returns the original position, given an inverse projection and a raw sign that matches the hemisphere |
| CoveragePlan.Shift | src/test_cov_plan.py:23-25 | the result keeps the length and the multiset of elements, and position `i` holds `seq[(i - n) mod len]` (a right rotation) |
| CoveragePlan.ShiftByMultipleIsIdentity | src/test_cov_plan.py:24-25 | when `n % len == 0` the list is unchanged |
| CoveragePlan.ShiftDependsOnResidue | src/test_cov_plan.py:24 | rotations whose amounts agree modulo the length are equal |
| CoveragePlan.ShiftCompose | src/test_cov_plan.py:23-25 | rotating by `m` then by `n` is rotating by `m + n` |
| CoveragePlan.ShiftInverse | src/test_cov_plan.py:23-25 | rotating by `-n` undoes rotating by `n` |
| CoveragePlan.LexMin | src/test_cov_plan.py:60 | the result is one of the candidates and is ≤ every candidate in tuple order |
| CoveragePlan.SortedHeadIsLexMin | src/test_cov_plan.py:60 | the head of any sorted permutation of the candidates is the least candidate, so `sorted(angles)[0]` is well defined |
| CoveragePlan.SweepAngle | src/test_cov_plan.py:55 | the sampled angles run from 0 to 90 degrees inclusive |
| CoveragePlan.FindBest | src/test_cov_plan.py:49-60 | the chosen pair is a sampled (length, angle), has the minimal length, and on ties has the smallest angle |
| CoveragePlan.ZeroWinsTies | src/test_cov_plan.py:55-60 | when 0° is as short as every sampled angle (for example, a square where 0° and 90° tie at the minimum), 0° is chosen |

## Findings

| source | as written | input that shows it | evidently intended | confidence | as-written member | corrected member |
|---|---|---|---|---|---|---|
| src/border_path.py:121-130 | `poly[cur_idx + 1]` is read before the test that resets the index to 0 at the last vertex. So the walk raises IndexError whenever the start index is greater than the end index, and the reset never runs | the module's own example: ring (0,0),(0,10),(10,10),(10,0),(0,0) from (7,10) to (4,0). The anchors are index 1 and index 0 (`PerimeterExample.ExampleTakesFailingBranch`) | wrap to index 0 after the last vertex and carry on to the end index | not executed; high | Perimeter.WalkAsWritten | Perimeter.WalkForward |

## Left out

- Qt user interface (`src/map.py`, `src/gui.py`, `src/mapObjects.py`): widgets, painting and signals, with no planning logic.
- `src/smoother.py`: numerical optimisation over floating point, with no exact contract to state.
- `src/core.py`: Qt model plumbing.
- The backend (`backend/src/*`), `src/constants.py` and `src/draw_shp.py`: web plumbing, constants and drawing.
- Internals of shapely buffering, nearest points and segment distance, and of pyproj projection. These are parameters. `__nearest_polygon_point` is one of them (`BorderPath.NearestOnRing`).
- A buffer result that is a multi-polygon. `Offset.Buffered` has only the empty and single-polygon cases.
- `__build_final_path`: it is unfinished and ends in a TODO.
- `build_path`'s `exit_point` and `path_name` parameters. Both are used only for debug plotting.
- The `DEBUG`, `GO_AROUND_TWICE` and `STOP_DIST` flags, all matplotlib plotting, and all printed messages.
- `write_path_to_json` and `utm.Converter`'s shapefile reading: file I/O.
- `project`'s cache of projections per zone: memoisation with no effect on results.
- Utm.Unproject: Python mutates the caller's point lists in place. The model returns the adjusted points instead, and does not model a point object listed twice being shifted twice.
- Utm.Zone: a longitude of exactly 180 gives zone 61, as in the source. The 1..60 range is stated for [-180, 180) only.
- Floating-point rounding. All arithmetic is exact over reals, including the 1e-8 on-segment test and the `np.linspace` angles (k·90/89).
- CoveragePlan.Shift: the empty list is excluded by its precondition, because Python's `n % 0` raises ZeroDivisionError there.
- CoveragePlan.FindBest: the `AreaPolygon` sweep producer is not part of this model; the coverage length per angle is a parameter. Python's sort is not modelled as an algorithm; `SortedHeadIsLexMin` connects any sorted permutation to the chosen pair.

=== FILE: border_path.dfy ===
/** The boundary loop of `src/border_path.py`: the field is inset by the
    working margin and the vehicle drives once around the inset, returning to
    the point where it joined it. */
module BorderPath {
  import opened Geometry
  import opened Offset

  /** shapely's `nearest_points(Polygon(ring), p)[0]`: the point of the ring's
      polygon closest to `p`. */
  type NearestOnRing = (Point, seq<Point>) -> Point

  /** The inset ring the loop follows, or `[]` when the margin is too large. */
  function Inset(border: seq<Point>, step: real, buffer: Buffer): seq<Point> {
    ShrinkOrSwell(border, step, false, buffer)
  }

  /** `build_path`: from the entry point to the nearest point of the inset,
      once around the inset's corners, and back to that start point. */
  function BuildPath(border: seq<Point>, entry: Point, step: real,
                     buffer: Buffer, nearest: NearestOnRing): (path: seq<Point>)
    ensures path == [] <==> Inset(border, step, buffer) == []
    ensures path != [] ==>
      var inner := Inset(border, step, buffer);
      && |path| == |inner| + 2
      && path[0] == entry
      && path[1] == nearest(entry, inner)
      && path[|path| - 1] == path[1]
      && forall k :: 0 <= k < |inner| - 1 ==> path[k + 2] == inner[k]
  {
    var inner := Inset(border, step, buffer);
    if inner == [] then []
    else
      var start := nearest(entry, inner);
      [entry, start] + inner[..|inner| - 1] + [start]
  }

  /** Dropping the entry leg and the closing start point and re-closing the
      remaining corners gives back exactly the inset ring. */
  lemma LoopRecoversInset(border: seq<Point>, entry: Point, step: real,
                          buffer: Buffer, nearest: NearestOnRing)
    requires WellFormed(buffer)
    requires Inset(border, step, buffer) != []
    ensures var path := BuildPath(border, entry, step, buffer, nearest);
            path[2..|path| - 1] + [path[2]] == Inset(border, step, buffer)
  {
    var inner := Inset(border, step, buffer);
    var path := BuildPath(border, entry, step, buffer, nearest);
    assert ClosedRing(inner);
    assert path[2..|path| - 1] == inner[..|inner| - 1];
    assert path[2] == inner[0];
    assert inner[..|inner| - 1] + [inner[|inner| - 1]] == inner;
  }

  /** The loop's length: the entry leg, the way round the corners, and the
      leg from the last corner back to the start point. */
  lemma LoopLength(border: seq<Point>, entry: Point, step: real,
                   buffer: Buffer, nearest: NearestOnRing, dist: Metric)
    requires WellFormed(buffer)
    requires Inset(border, step, buffer) != []
    ensures var inner := Inset(border, step, buffer);
            var start := nearest(entry, inner);
            PathLength(BuildPath(border, entry, step, buffer, nearest), dist)
              == dist(entry, start) + dist(start, inner[0])
                 + PathLength(inner[..|inner| - 1], dist) + dist(inner[|inner| - 2], start)
  {
    var inner := Inset(border, step, buffer);
    var start := nearest(entry, inner);
    var corners := inner[..|inner| - 1];
    assert ClosedRing(inner);
    PathLengthAppend([entry, start], corners, dist);
    PathLengthSnoc([entry, start] + corners, start, dist);
    assert PathLength([entry, start], dist) == dist(entry, start) + PathLength([start], dist);
  }
}

=== FILE: coverage_plan.dfy ===
/** The coverage-angle experiment of `src/test_cov_plan.py`: rotating the
    boundary's vertex list, and picking the sweep angle whose coverage line
    is shortest. The sweep producer itself is left abstract. */
module CoveragePlan {

  /** Python's reading of an index in `-n..n` into a list of length `n`. */
  function PyIndex(k: int, n: nat): (i: nat)
    requires -(n as int) <= k <= n
    ensures i <= n
  {
    if k < 0 then k + n else k
  }

  /** `x % n` when `x == n * q + m` with `0 <= m < n`. */
  lemma ModUnique(x: int, n: int, q: int, m: int)
    requires n > 0 && 0 <= m < n && x == n * q + m
    ensures x % n == m
  {
    var d := q - x / n;
    assert n * d == x % n - m;
    MulMagnitude(n, d);
  }

  /** A positive multiple of `n` is at least `n`. */
  lemma {:induction false} MulAtLeast(n: int, d: int)
    requires n > 0 && d >= 1
    ensures n * d >= n
    decreases d
  {
    if d > 1 {
      MulAtLeast(n, d - 1);
      assert n * d == n * (d - 1) + n;
    }
  }

  /** A non-zero multiple of `n` is at least `n` away from zero. */
  lemma MulMagnitude(n: int, d: int)
    requires n > 0
    ensures d == 0 || n * d >= n || n * d <= -n
  {
    if d > 0 {
      MulAtLeast(n, d);
    } else if d < 0 {
      MulAtLeast(n, -d);
      assert n * d == -(n * -d);
    }
  }

  /** Adding a multiple of `n` does not change the remainder. */
  lemma ModAddMultiple(x: int, n: int, k: int)
    requires n > 0
    ensures (x + n * k) % n == x % n
  {
    assert x + n * k == n * (x / n + k) + x % n;
    ModUnique(x + n * k, n, x / n + k, x % n);
  }

  /** Subtracting `n` or its remainder modulo `L` leaves the same remainder. */
  lemma ModSubResidue(i: int, n: int, L: int)
    requires L > 0
    ensures (i - n) % L == (i - n % L) % L
  {
    assert i - n == (i - n % L) + L * -(n / L);
    ModAddMultiple(i - n % L, L, -(n / L));
  }

  /** Reducing an intermediate value modulo `L` leaves the final remainder unchanged. */
  lemma ModSubNested(x: int, m: int, L: int)
    requires L > 0
    ensures (x % L - m) % L == (x - m) % L
  {
    assert x - m == (x % L - m) + L * (x / L);
    ModAddMultiple(x % L - m, L, x / L);
  }

  /** The element of the rotated list at each position. */
  lemma RotationPointwise<T>(s: seq<T>, n: int, i: int)
    requires 0 <= i < |s|
    ensures var a := n % |s|;
            var cut := PyIndex(-a, |s|);
            (s[cut..] + s[..cut])[i] == s[(i - n) % |s|]
  {
    var L := |s|;
    var a := n % L;
    var q := n / L;
    assert n == L * q + a;
    if a == 0 {
      ModUnique(i - n, L, -q, i);
    } else if i < a {
      ModUnique(i - n, L, -q - 1, L - a + i);
    } else {
      ModUnique(i - n, L, -q, i - a);
    }
  }

  /** `shift`: rotate the list right by `n` places, as
      `seq[-a:] + seq[:-a]` with `a = n % len(seq)`. An empty list makes the
      remainder raise ZeroDivisionError. */
  function Shift<T>(s: seq<T>, n: int): (r: seq<T>)
    requires |s| > 0
    ensures |r| == |s|
    ensures multiset(r) == multiset(s)
    ensures forall i :: 0 <= i < |s| ==> r[i] == s[(i - n) % |s|]
  {
    var a := n % |s|;
    var cut := PyIndex(-a, |s|);
    assert s == s[..cut] + s[cut..];
    assert forall i :: 0 <= i < |s| ==> (s[cut..] + s[..cut])[i] == s[(i - n) % |s|] by {
      forall i | 0 <= i < |s|
        ensures (s[cut..] + s[..cut])[i] == s[(i - n) % |s|]
      {
        RotationPointwise(s, n, i);
      }
    }
    s[cut..] + s[..cut]
  }

  /** A rotation by a multiple of the length is the identity: `seq[-0:]` is
      the whole list and `seq[:-0]` is empty. */
  lemma ShiftByMultipleIsIdentity<T>(s: seq<T>, n: int)
    requires |s| > 0 && n % |s| == 0
    ensures Shift(s, n) == s
  {
    var r := Shift(s, n);
    forall i | 0 <= i < |s|
      ensures r[i] == s[i]
    {
      ModAddMultiple(i, |s|, -(n / |s|));
      assert i - n == i + |s| * -(n / |s|);
    }
  }

  /** Only the rotation amount modulo the length matters. */
  lemma ShiftDependsOnResidue<T>(s: seq<T>, n: int, m: int)
    requires |s| > 0 && n % |s| == m % |s|
    ensures Shift(s, n) == Shift(s, m)
  {
    var a, b := Shift(s, n), Shift(s, m);
    forall i | 0 <= i < |s|
      ensures a[i] == b[i]
    {
      ModSubResidue(i, n, |s|);
      ModSubResidue(i, m, |s|);
    }
  }

  /** Rotating by `m` and then by `n` is rotating by `m + n`. */
  lemma ShiftCompose<T>(s: seq<T>, m: int, n: int)
    requires |s| > 0
    ensures Shift(Shift(s, m), n) == Shift(s, m + n)
  {
    forall i | 0 <= i < |s|
      ensures Shift(Shift(s, m), n)[i] == Shift(s, m + n)[i]
    {
      ShiftComposeAt(s, m, n, i);
    }
  }

  /** One position of `ShiftCompose`. */
  lemma ShiftComposeAt<T>(s: seq<T>, m: int, n: int, i: int)
    requires 0 <= i < |s|
    ensures Shift(Shift(s, m), n)[i] == Shift(s, m + n)[i]
  {
    var L := |s|;
    var k := (i - n) % L;
    var j := (k - m) % L;
    var t := (i - (m + n)) % L;
    assert j == t by {
      ModSubNested(i - n, m, L);
      assert i - n - m == i - (m + n);
    }
    assert Shift(Shift(s, m), n)[i] == Shift(s, m)[k];
    assert Shift(s, m)[k] == s[j];
    assert Shift(s, m + n)[i] == s[t];
  }

  /** Rotating back by the same amount restores the list. */
  lemma ShiftInverse<T>(s: seq<T>, n: int)
    requires |s| > 0
    ensures Shift(Shift(s, n), -n) == s
  {
    var back := Shift(Shift(s, n), -n);
    assert back == Shift(s, 0) by {
      ShiftCompose(s, n, -n);
    }
    assert Shift(s, 0) == s by {
      ShiftByMultipleIsIdentity(s, 0);
    }
  }

  /** A sweep candidate: (coverage line length, sweep angle in degrees). */
  type Candidate = (real, real)

  /** Python's ordering of such tuples: by length, then by angle. */
  predicate LexLe(a: Candidate, b: Candidate) {
    a.0 < b.0 || (a.0 == b.0 && a.1 <= b.1)
  }

  /** The least candidate in the tuple order. */
  function LexMin(cs: seq<Candidate>): (m: Candidate)
    requires |cs| > 0
    ensures m in cs
    ensures forall i :: 0 <= i < |cs| ==> LexLe(m, cs[i])
  {
    if |cs| == 1 then cs[0]
    else
      var rest := LexMin(cs[1..]);
      if LexLe(cs[0], rest) then cs[0] else rest
  }

  /** Two candidates each no greater than the other are equal. */
  lemma LexLeAntisymmetric(a: Candidate, b: Candidate)
    requires LexLe(a, b) && LexLe(b, a)
    ensures a == b
  {
  }

  /** `sorted(angles)[0]`: the head of any ordering of the candidates that is
      sorted by the tuple order is the least candidate. */
  lemma SortedHeadIsLexMin(cs: seq<Candidate>, sorted: seq<Candidate>)
    requires |cs| > 0
    requires multiset(sorted) == multiset(cs)
    requires forall i, j :: 0 <= i < j < |sorted| ==> LexLe(sorted[i], sorted[j])
    ensures sorted[0] == LexMin(cs)
  {
    var m := LexMin(cs);
    assert |sorted| == |cs| by {
      assert |multiset(sorted)| == |multiset(cs)|;
    }
    assert sorted[0] in multiset(cs);
    var k :| 0 <= k < |cs| && cs[k] == sorted[0];
    assert m in multiset(sorted);
    var l :| 0 <= l < |sorted| && sorted[l] == m;
    if l > 0 {
      assert LexLe(sorted[0], sorted[l]);
    }
    LexLeAntisymmetric(sorted[0], m);
  }

  /** The number of angles tried. */
  const Samples: nat := 90

  /** `np.linspace(0.0, 90.0, num=90)`: 90 evenly spaced angles with both
      ends included, so consecutive angles are 90/89 degrees apart. */
  function SweepAngle(k: nat): (angle: real)
    requires k < Samples
    ensures 0.0 <= angle <= 90.0
    ensures k == 0 ==> angle == 0.0
    ensures k == Samples - 1 ==> angle == 90.0
  {
    90.0 * (k as real) / 89.0
  }

  /** The candidate list built by `find_best`, for a sweep producer that
      gives the coverage line's length at each angle. */
  function Candidates(coverageLength: real -> real): (cs: seq<Candidate>)
    ensures |cs| == Samples
  {
    seq(Samples, k requires 0 <= k < Samples => (coverageLength(SweepAngle(k)), SweepAngle(k)))
  }

  /** `find_best`: the shortest coverage line over the sampled angles, ties
      going to the smallest angle. */
  function FindBest(coverageLength: real -> real): (best: Candidate)
    ensures exists k :: 0 <= k < Samples && best == (coverageLength(SweepAngle(k)), SweepAngle(k))
    ensures forall k :: 0 <= k < Samples ==> best.0 <= coverageLength(SweepAngle(k))
    ensures forall k :: 0 <= k < Samples && coverageLength(SweepAngle(k)) == best.0 ==> best.1 <= SweepAngle(k)
  {
    var cs := Candidates(coverageLength);
    var best := LexMin(cs);
    assert forall k :: 0 <= k < Samples ==> cs[k] == (coverageLength(SweepAngle(k)), SweepAngle(k));
    best
  }

  /** When the first angle's coverage is as short as every sampled angle's
      (for example a square, where 0 and 90 degrees tie at the minimum),
      0 degrees is chosen. */
  lemma ZeroWinsTies(coverageLength: real -> real)
    requires forall k :: 0 <= k < Samples ==> coverageLength(0.0) <= coverageLength(SweepAngle(k))
    ensures FindBest(coverageLength) == (coverageLength(0.0), 0.0)
  {
    var best := FindBest(coverageLength);
    var k :| 0 <= k < Samples && best == (coverageLength(SweepAngle(k)), SweepAngle(k));
    assert SweepAngle(0) == 0.0;
    assert best.0 <= coverageLength(0.0);
    assert best.1 <= 0.0;
  }
}

=== FILE: geometry.dfy ===
/** Planar points, path lengths and list lookups shared by the path planner.

    Euclidean distance needs a square root, which real arithmetic does not
    have, so every distance is taken from a caller-supplied metric. */
module Geometry {

  /** A planar coordinate pair, in metres. */
  datatype Point = Point(x: real, y: real)

  /** The point-to-point distance used by the planner (shapely's `Point.distance`). */
  type Metric = (Point, Point) -> real

  ghost predicate NonNegative(dist: Metric) {
    forall p, q :: dist(p, q) >= 0.0
  }

  /** Sum of `dist` over consecutive points of `path`. */
  function PathLength(path: seq<Point>, dist: Metric): (len: real)
    ensures |path| < 2 ==> len == 0.0
    ensures NonNegative(dist) ==> len >= 0.0
  {
    if |path| < 2 then 0.0 else dist(path[0], path[1]) + PathLength(path[1..], dist)
  }

  /** Appending one point adds exactly the closing segment. */
  lemma {:induction false} PathLengthSnoc(path: seq<Point>, p: Point, dist: Metric)
    requires |path| > 0
    ensures PathLength(path + [p], dist) == PathLength(path, dist) + dist(path[|path| - 1], p)
  {
    if |path| == 1 {
      assert (path + [p])[1..] == [p];
    } else {
      assert (path + [p])[1..] == path[1..] + [p];
      PathLengthSnoc(path[1..], p, dist);
    }
  }

  /** Concatenating two paths adds the segment that joins them. */
  lemma {:induction false} PathLengthAppend(a: seq<Point>, b: seq<Point>, dist: Metric)
    requires |a| > 0 && |b| > 0
    ensures PathLength(a + b, dist) == PathLength(a, dist) + dist(a[|a| - 1], b[0]) + PathLength(b, dist)
  {
    if |a| == 1 {
      assert (a + b)[1..] == b;
    } else {
      assert (a + b)[1..] == a[1..] + b;
      PathLengthAppend(a[1..], b, dist);
    }
  }

  /** Cutting a path at one of its points splits its length into two parts
      that share that point. */
  lemma PathLengthSplit(path: seq<Point>, k: nat, dist: Metric)
    requires k < |path|
    ensures PathLength(path, dist) == PathLength(path[..k + 1], dist) + PathLength(path[k..], dist)
  {
    if k + 1 < |path| {
      PathLengthAppend(path[..k + 1], path[k + 1..], dist);
      assert path[..k + 1] + path[k + 1..] == path;
      assert path[k..] == [path[k]] + path[k + 1..];
      PathLengthAppend([path[k]], path[k + 1..], dist);
    } else {
      assert path[..k + 1] == path;
    }
  }

  /** Python's `list.index`: the smallest index holding an equal element. */
  function IndexOf<T(==)>(s: seq<T>, e: T): (i: nat)
    requires e in s
    ensures i < |s| && s[i] == e
    ensures forall j :: 0 <= j < i ==> s[j] != e
  {
    if s[0] == e then 0 else 1 + IndexOf(s[1..], e)
  }
}

=== FILE: offset.dfy ===
/** Polygon insetting and outsetting (`__shrink_or_swell_polygon`), with the
    geometry library's buffer operation left abstract. */
module Offset {
  import opened Geometry

  /** What a buffer call yields, reduced to what the planner reads from it:
      an empty geometry, or a polygon given by its exterior ring. */
  datatype Buffered = EmptyGeometry | Polygon(exterior: seq<Point>)

  /** shapely's `Polygon(coords).buffer(distance)`; a negative distance shrinks. */
  type Buffer = (seq<Point>, real) -> Buffered

  /** A ring as the geometry library writes it: at least four points, with
      the first repeated at the end. */
  predicate ClosedRing(ring: seq<Point>) {
    |ring| >= 4 && ring[0] == ring[|ring| - 1]
  }

  /** The buffer only ever produces closed rings. */
  ghost predicate WellFormed(buffer: Buffer) {
    forall coords, d :: buffer(coords, d).Polygon? ==> ClosedRing(buffer(coords, d).exterior)
  }

  /** Buffers `coords` outward by `shrinkDist` when `swell` holds and inward
      otherwise; an empty result becomes the empty list. */
  function ShrinkOrSwell(coords: seq<Point>, shrinkDist: real, swell: bool, buffer: Buffer): (ring: seq<Point>)
    ensures buffer(coords, if swell then shrinkDist else -shrinkDist).EmptyGeometry? ==> ring == []
    ensures ring != [] ==> buffer(coords, if swell then shrinkDist else -shrinkDist) == Polygon(ring)
    ensures var resized := buffer(coords, if swell then shrinkDist else -shrinkDist);
            resized.Polygon? ==> ring == resized.exterior
    ensures WellFormed(buffer) ==> ring == [] || ClosedRing(ring)
  {
    var resized := if swell then buffer(coords, shrinkDist) else buffer(coords, -shrinkDist);
    match resized
    case EmptyGeometry => []
    case Polygon(exterior) => exterior
  }

  /** Shrinking by `d` is swelling by `-d`: both flags reach the same buffer call. */
  lemma ShrinkIsNegatedSwell(coords: seq<Point>, d: real, buffer: Buffer)
    ensures ShrinkOrSwell(coords, d, false, buffer) == ShrinkOrSwell(coords, -d, true, buffer)
    ensures ShrinkOrSwell(coords, d, true, buffer) == ShrinkOrSwell(coords, -d, false, buffer)
  {
    assert -(-d) == d;
  }
}

=== FILE: outcomes.dfy ===
/** Failure-carrying values for the places where the planner's Python code
    returns None or raises instead of producing a value. */
module Outcomes {

  /** A value that may be missing (the source's `None`). */
  datatype Option<+T> = None | Some(value: T)

  /** A value or the error that stopped its computation. */
  datatype Result<+T, +E> = Success(value: T) | Failure(error: E)
}

=== FILE: perimeter.dfy ===
/** Routing along a ring between two points that lie on it
    (`__nearest_polygon_points` and `polygon_perimeter_between_points` in
    `src/border_path.py`).

    The walk as written reads the next vertex before testing for the end of
    the list, so it fails whenever it would have to wrap around; both that
    walk and the wrapping walk it was evidently meant to be are modelled. */
module Perimeter {
  import opened Outcomes
  import opened Geometry

  /** The distance below which a point counts as lying on a segment. */
  const OnSegmentTolerance: real := 0.00000001

  /** shapely's `LineString([a, b]).distance(Point(p))`, as `segDist(a, b, p)`. */
  type SegmentDistance = (Point, Point, Point) -> real

  /** The pair `(poly[i], poly[j])` is one the nested loops visit:
      `p1` ranges over `poly[:-1]` and `p2` over `poly[1:]`. */
  predicate LoopPair(poly: seq<Point>, i: int, j: int) {
    0 <= i < |poly| - 1 && 1 <= j < |poly|
  }

  /** The segment from `poly[i]` to `poly[j]` passes within tolerance of `p`. */
  predicate Touches(poly: seq<Point>, p: Point, segDist: SegmentDistance, i: int, j: int)
    requires 0 <= i < |poly| && 0 <= j < |poly|
  {
    segDist(poly[i], poly[j], p) < OnSegmentTolerance
  }

  /** `(i2, j2)` comes before `(i, j)` in the order of the nested loops. */
  predicate Before(i2: int, j2: int, i: int, j: int) {
    i2 < i || (i2 == i && j2 < j)
  }

  /** `(i, j)` is the first touching candidate in loop order. */
  ghost predicate FirstTouching(poly: seq<Point>, p: Point, segDist: SegmentDistance, i: int, j: int) {
    && LoopPair(poly, i, j)
    && Touches(poly, p, segDist, i, j)
    && forall i2, j2 :: LoopPair(poly, i2, j2) && Before(i2, j2, i, j) ==> !Touches(poly, p, segDist, i2, j2)
  }

  /** The inner loop: the first `j2 >= j` whose segment from `poly[i]` touches `p`. */
  function ScanRow(poly: seq<Point>, p: Point, segDist: SegmentDistance, i: nat, j: nat): (r: Option<nat>)
    requires i < |poly| - 1 && 1 <= j <= |poly|
    ensures r.Some? ==> j <= r.value < |poly| && Touches(poly, p, segDist, i, r.value)
    ensures r.Some? ==> forall k :: j <= k < r.value ==> !Touches(poly, p, segDist, i, k)
    ensures r.None? ==> forall k :: j <= k < |poly| ==> !Touches(poly, p, segDist, i, k)
    decreases |poly| - j
  {
    if j == |poly| then None
    else if Touches(poly, p, segDist, i, j) then Some(j)
    else ScanRow(poly, p, segDist, i, j + 1)
  }

  /** The outer loop from row `i` on: the first touching candidate whose
      first index is at least `i`. */
  function ScanRows(poly: seq<Point>, p: Point, segDist: SegmentDistance, i: nat): (r: Option<(nat, nat)>)
    ensures r.Some? ==> i <= r.value.0 && FirstTouchingFrom(poly, p, segDist, i, r.value.0, r.value.1)
    ensures r.None? ==> forall i2, j2 :: LoopPair(poly, i2, j2) && i <= i2 ==> !Touches(poly, p, segDist, i2, j2)
    decreases |poly| - i
  {
    if i + 1 >= |poly| then None
    else match ScanRow(poly, p, segDist, i, 1)
      case Some(j) => Some((i, j))
      case None => ScanRows(poly, p, segDist, i + 1)
  }

  /** `(i, j)` is the first touching candidate among rows `from` onwards. */
  ghost predicate FirstTouchingFrom(poly: seq<Point>, p: Point, segDist: SegmentDistance, from: int, i: int, j: int) {
    && LoopPair(poly, i, j)
    && Touches(poly, p, segDist, i, j)
    && forall i2, j2 :: LoopPair(poly, i2, j2) && from <= i2 && Before(i2, j2, i, j) ==> !Touches(poly, p, segDist, i2, j2)
  }

  /** `__nearest_polygon_points`: the first pair `(p1, p2)`, in nested-loop
      order, whose segment passes within tolerance of `p`; `None` when no
      pair does. The two points need not be neighbours on the ring. */
  function NearestPolygonPoints(p: Point, poly: seq<Point>, segDist: SegmentDistance): (r: Option<(Point, Point)>)
    ensures r.None? <==> forall i, j :: LoopPair(poly, i, j) ==> !Touches(poly, p, segDist, i, j)
    ensures r.Some? ==> exists i, j :: FirstTouching(poly, p, segDist, i, j) && r.value == (poly[i], poly[j])
  {
    match ScanRows(poly, p, segDist, 0)
    case None => None
    case Some((i, j)) =>
      assert FirstTouching(poly, p, segDist, i, j);
      Some((poly[i], poly[j]))
  }

  /** The ring indices the walk runs between: `poly.index` of the first point
      of each touching pair, or `None` when either point is off the ring
      (the source then fails unpacking `None`). */
  function Anchors(p1: Point, p2: Point, poly: seq<Point>, segDist: SegmentDistance): (r: Option<(nat, nat)>)
    ensures r.None? <==> NearestPolygonPoints(p1, poly, segDist).None? || NearestPolygonPoints(p2, poly, segDist).None?
    ensures r.Some? ==>
      && r.value.0 < |poly| - 1 && r.value.1 < |poly| - 1
      && poly[r.value.0] == NearestPolygonPoints(p1, poly, segDist).value.0
      && poly[r.value.1] == NearestPolygonPoints(p2, poly, segDist).value.0
      && (forall k :: 0 <= k < r.value.0 ==> poly[k] != NearestPolygonPoints(p1, poly, segDist).value.0)
      && (forall k :: 0 <= k < r.value.1 ==> poly[k] != NearestPolygonPoints(p2, poly, segDist).value.0)
  {
    match (NearestPolygonPoints(p1, poly, segDist), NearestPolygonPoints(p2, poly, segDist))
    case (Some((start1, _)), Some((end1, _))) =>
      AnchorBeforeLast(p1, poly, segDist);
      AnchorBeforeLast(p2, poly, segDist);
      Some((IndexOf(poly, start1), IndexOf(poly, end1)))
    case _ => None
  }

  /** The first point of a touching pair occurs in `poly[:-1]`, so its
      smallest index is below the last index. */
  lemma AnchorBeforeLast(p: Point, poly: seq<Point>, segDist: SegmentDistance)
    requires NearestPolygonPoints(p, poly, segDist).Some?
    ensures NearestPolygonPoints(p, poly, segDist).value.0 in poly
    ensures IndexOf(poly, NearestPolygonPoints(p, poly, segDist).value.0) < |poly| - 1
  {
    var i, j :| FirstTouching(poly, p, segDist, i, j) && NearestPolygonPoints(p, poly, segDist).value == (poly[i], poly[j]);
    assert poly[i] == NearestPolygonPoints(p, poly, segDist).value.0;
  }

  datatype WalkError =
    | NotOnRing         // a point has no touching pair: unpacking `None` raises
    | IndexOutOfRange   // `poly[cur_idx + 1]` read past the end of the list

  /** The vertices from index `i` forward to index `j`, wrapping past the
      end of the list when `j < i`. */
  function ForwardArc(poly: seq<Point>, i: nat, j: nat): (arc: seq<Point>)
    requires i < |poly| && j < |poly|
    ensures |arc| > 0 && arc[0] == poly[i] && arc[|arc| - 1] == poly[j]
  {
    if i <= j then poly[i..j + 1] else poly[i..] + poly[..j + 1]
  }

  /** The walking loop of `polygon_perimeter_between_points` as written.
      The source's reset of the index to 0 at the last vertex never runs:
      at the last vertex the read of `poly[cur_idx + 1]` fails first. */
  method WalkAsWritten(p1: Point, p2: Point, poly: seq<Point>, startIdx: nat, endIdx: nat, dist: Metric)
    returns (r: Result<(seq<Point>, real), WalkError>)
    requires startIdx < |poly| && endIdx < |poly|
    ensures r.Failure? <==> startIdx > endIdx
    ensures r.Failure? ==> r.error == IndexOutOfRange
    ensures r.Success? ==> r.value.0 == [p1] + poly[startIdx..endIdx + 1] + [p2]
    ensures r.Success? ==> r.value.1 == PathLength(r.value.0, dist)
  {
    var cur := startIdx;
    var path := [p1, poly[cur]];
    var len := dist(p1, poly[startIdx]);
    assert PathLength([poly[cur]], dist) == 0.0;
    while cur != endIdx
      invariant startIdx <= cur < |poly|
      invariant startIdx <= endIdx ==> cur <= endIdx
      invariant path == [p1] + poly[startIdx..cur + 1]
      invariant len == PathLength(path, dist)
      decreases |poly| - cur
    {
      if cur + 1 >= |poly| {
        return Failure(IndexOutOfRange);
      }
      var next := poly[cur + 1];
      PathLengthSnoc(path, next, dist);
      path := path + [next];
      len := len + dist(poly[cur], next);
      assert poly[startIdx..cur + 2] == poly[startIdx..cur + 1] + [poly[cur + 1]];
      cur := cur + 1;
    }
    PathLengthSnoc(path, p2, dist);
    len := len + dist(poly[endIdx], p2);
    path := path + [p2];
    r := Success((path, len));
  }

  /** The walk with the wrap taken before the read, as the loop's own reset
      to index 0 intends: it never fails and follows the ring forward. */
  method WalkForward(p1: Point, p2: Point, poly: seq<Point>, startIdx: nat, endIdx: nat, dist: Metric)
    returns (path: seq<Point>, len: real)
    requires startIdx < |poly| && endIdx < |poly|
    ensures path == [p1] + ForwardArc(poly, startIdx, endIdx) + [p2]
    ensures startIdx == endIdx ==> path == [p1, poly[startIdx], p2]
    ensures len == PathLength(path, dist)
  {
    var cur := startIdx;
    path := [p1, poly[cur]];
    len := dist(p1, poly[startIdx]);
    assert PathLength([poly[cur]], dist) == 0.0;
    while cur != endIdx
      invariant cur < |poly|
      invariant if startIdx <= endIdx then startIdx <= cur <= endIdx else startIdx <= cur || cur <= endIdx
      invariant path == [p1] + ForwardArc(poly, startIdx, cur)
      invariant len == PathLength(path, dist)
      decreases if cur <= endIdx then endIdx - cur else |poly| - cur + endIdx
    {
      var next := if cur == |poly| - 1 then 0 else cur + 1;
      ForwardArcStep(poly, startIdx, cur, next);
      PathLengthSnoc(path, poly[next], dist);
      path := path + [poly[next]];
      len := len + dist(poly[cur], poly[next]);
      cur := next;
    }
    PathLengthSnoc(path, p2, dist);
    len := len + dist(poly[endIdx], p2);
    path := path + [p2];
  }

  /** One forward step extends the arc by the next vertex. */
  lemma ForwardArcStep(poly: seq<Point>, i: nat, cur: nat, next: nat)
    requires i < |poly| && cur < |poly|
    requires next == if cur == |poly| - 1 then 0 else cur + 1
    requires i <= cur || next < i
    requires next != i
    ensures ForwardArc(poly, i, next) == ForwardArc(poly, i, cur) + [poly[next]]
  {
    if cur == |poly| - 1 {
      assert poly[i..cur + 1] == poly[i..];
      assert poly[..1] == [poly[0]];
    } else if i <= cur {
      assert poly[i..next + 1] == poly[i..cur + 1] + [poly[next]];
    } else {
      assert poly[..next + 1] == poly[..cur + 1] + [poly[next]];
    }
  }

  /** `polygon_perimeter_between_points` as written: anchor both points on the
      ring, then walk forward by index; fails when the walk would wrap. */
  method PerimeterBetweenAsWritten(p1: Point, p2: Point, poly: seq<Point>,
                                   segDist: SegmentDistance, dist: Metric)
    returns (r: Result<(seq<Point>, real), WalkError>)
    ensures Anchors(p1, p2, poly, segDist).None? ==> r == Failure(NotOnRing)
    ensures Anchors(p1, p2, poly, segDist).Some? ==>
      var (s, e) := Anchors(p1, p2, poly, segDist).value;
      && (r.Failure? <==> s > e)
      && (r.Failure? ==> r.error == IndexOutOfRange)
      && (r.Success? ==> r.value.0 == [p1] + poly[s..e + 1] + [p2] && r.value.1 == PathLength(r.value.0, dist))
  {
    var anchors := Anchors(p1, p2, poly, segDist);
    if anchors.None? {
      return Failure(NotOnRing);
    }
    var (s, e) := anchors.value;
    r := WalkAsWritten(p1, p2, poly, s, e, dist);
  }

  /** The routing with the wrapping walk: a path from `p1` forward along the
      ring to `p2`, and its length. */
  method PerimeterBetween(p1: Point, p2: Point, poly: seq<Point>,
                          segDist: SegmentDistance, dist: Metric)
    returns (r: Result<(seq<Point>, real), WalkError>)
    ensures r.Failure? <==> Anchors(p1, p2, poly, segDist).None?
    ensures r.Failure? ==> r.error == NotOnRing
    ensures r.Success? ==>
      var (s, e) := Anchors(p1, p2, poly, segDist).value;
      && r.value.0 == [p1] + ForwardArc(poly, s, e) + [p2]
      && r.value.0[1] == NearestPolygonPoints(p1, poly, segDist).value.0
      && r.value.1 == PathLength(r.value.0, dist)
  {
    var anchors := Anchors(p1, p2, poly, segDist);
    if anchors.None? {
      return Failure(NotOnRing);
    }
    var (s, e) := anchors.value;
    var path, len := WalkForward(p1, p2, poly, s, e, dist);
    r := Success((path, len));
  }

  /** Walking forward from `i` to `j` and then from `j` back to `i` covers
      every segment of the list once, plus the wrap-around segment from the
      last vertex to the first. */
  lemma ArcsComplement(poly: seq<Point>, i: nat, j: nat, dist: Metric)
    requires i < j < |poly|
    ensures PathLength(ForwardArc(poly, i, j), dist) + PathLength(ForwardArc(poly, j, i), dist)
            == PathLength(poly, dist) + dist(poly[|poly| - 1], poly[0])
  {
    var head, middle, tail := poly[..i + 1], poly[i..j + 1], poly[j..];
    ArcsAsSlices(poly, i, j);
    var there := PathLength(ForwardArc(poly, i, j), dist);
    var back := PathLength(ForwardArc(poly, j, i), dist);
    assert there == PathLength(middle, dist);
    assert back == PathLength(tail + head, dist);
    PathLengthThreeWay(poly, i, j, dist);
    assert tail[|tail| - 1] == poly[|poly| - 1];
    PathLengthAppend(tail, head, dist);
    assert back == PathLength(tail, dist) + dist(poly[|poly| - 1], poly[0]) + PathLength(head, dist);
  }

  /** The two arcs between `i < j`, as slices of the list. */
  lemma ArcsAsSlices(poly: seq<Point>, i: nat, j: nat)
    requires i < j < |poly|
    ensures ForwardArc(poly, i, j) == poly[i..j + 1]
    ensures ForwardArc(poly, j, i) == poly[j..] + poly[..i + 1]
  {
  }

  /** Cutting a list at two vertices splits its length into three parts. */
  lemma PathLengthThreeWay(poly: seq<Point>, i: nat, j: nat, dist: Metric)
    requires i < j < |poly|
    ensures PathLength(poly, dist)
            == PathLength(poly[..i + 1], dist) + PathLength(poly[i..j + 1], dist) + PathLength(poly[j..], dist)
  {
    var rest := poly[i..];
    PathLengthSplit(poly, i, dist);
    PathLengthSplit(rest, j - i, dist);
    assert rest[..j - i + 1] == poly[i..j + 1];
    assert rest[j - i..] == poly[j..];
  }

  /** On a closed ring (last vertex equal to the first) under a metric that
      gives a point zero distance to itself, the two arcs sum to the ring's
      perimeter. */
  lemma ArcsSumToPerimeter(poly: seq<Point>, i: nat, j: nat, dist: Metric)
    requires i < j < |poly|
    requires poly[0] == poly[|poly| - 1]
    requires dist(poly[0], poly[0]) == 0.0
    ensures PathLength(ForwardArc(poly, i, j), dist) + PathLength(ForwardArc(poly, j, i), dist)
            == PathLength(poly, dist)
  {
    ArcsComplement(poly, i, j, dist);
  }
}

/** The routing example shipped with `src/border_path.py`, traced through
    the as-written walk by proof. */
module PerimeterExample {
  import opened Outcomes
  import opened Geometry
  import opened Perimeter

  /** The square field of the example, closed by repeating its first corner. */
  const Square: seq<Point> := [Point(0.0, 0.0), Point(0.0, 10.0), Point(10.0, 10.0), Point(10.0, 0.0), Point(0.0, 0.0)]

  /** Exact membership of `p` in the closed segment from `a` to `b`. */
  predicate OnSegment(a: Point, b: Point, p: Point) {
    && (b.x - a.x) * (p.y - a.y) == (b.y - a.y) * (p.x - a.x)
    && (a.x <= p.x <= b.x || b.x <= p.x <= a.x)
    && (a.y <= p.y <= b.y || b.y <= p.y <= a.y)
  }

  /** `segDist` tells segments through `p` from the others the way the true
      distance does for the square's corners: every segment between them that
      misses `p` misses it by far more than the tolerance. */
  ghost predicate ExactNear(segDist: SegmentDistance, p: Point) {
    forall a, b :: a in Square && b in Square ==> (segDist(a, b, p) < OnSegmentTolerance <==> OnSegment(a, b, p))
  }

  /** Routing from (7, 10) to (4, 0) anchors at index 1 and index 0: (4, 0)
      is found on the closing edge, reached as the non-adjacent pair of
      corners 0 and 3. Since 1 > 0, the as-written walk fails on this input. */
  lemma ExampleTakesFailingBranch(segDist: SegmentDistance)
    requires ExactNear(segDist, Point(7.0, 10.0)) && ExactNear(segDist, Point(4.0, 0.0))
    ensures NearestPolygonPoints(Point(7.0, 10.0), Square, segDist) == Some((Point(0.0, 10.0), Point(10.0, 10.0)))
    ensures NearestPolygonPoints(Point(4.0, 0.0), Square, segDist) == Some((Point(0.0, 0.0), Point(10.0, 0.0)))
    ensures Anchors(Point(7.0, 10.0), Point(4.0, 0.0), Square, segDist) == Some((1, 0))
  {
    var b, a := Point(7.0, 10.0), Point(4.0, 0.0);
    assert !Touches(Square, b, segDist, 0, 1) && !Touches(Square, b, segDist, 0, 2);
    assert !Touches(Square, b, segDist, 0, 3) && !Touches(Square, b, segDist, 0, 4);
    assert ScanRow(Square, b, segDist, 0, 1) == None;
    assert !Touches(Square, b, segDist, 1, 1) && Touches(Square, b, segDist, 1, 2);
    assert ScanRow(Square, b, segDist, 1, 1) == Some(2);
    assert ScanRows(Square, b, segDist, 0) == Some((1, 2));
    assert !Touches(Square, a, segDist, 0, 1) && !Touches(Square, a, segDist, 0, 2);
    assert Touches(Square, a, segDist, 0, 3);
    assert ScanRow(Square, a, segDist, 0, 1) == Some(3);
    assert ScanRows(Square, a, segDist, 0) == Some((0, 3));
    assert IndexOf(Square, Point(0.0, 10.0)) == 1;
    assert IndexOf(Square, Point(0.0, 0.0)) == 0;
  }
}

=== FILE: planning_border_path.dfy ===
/** The earlier boundary loop of `planning/border_path.py`, which stops at the
    last corner of the inset instead of returning to the start point. */
module PlanningBorderPath {
  import opened Geometry
  import opened Offset
  import BorderPath

  /** `build_path` (earlier variant): entry point, nearest point of the inset,
      then the inset's corners in ring order. */
  function BuildPathUnclosed(border: seq<Point>, entry: Point, step: real,
                             buffer: Buffer, nearest: BorderPath.NearestOnRing): (path: seq<Point>)
    ensures path == [] <==> BorderPath.Inset(border, step, buffer) == []
    ensures path != [] ==>
      var inner := BorderPath.Inset(border, step, buffer);
      && |path| == |inner| + 1
      && path[0] == entry
      && path[1] == nearest(entry, inner)
      && path[2..] == inner[..|inner| - 1]
  {
    var inner := ShrinkOrSwell(border, step, false, buffer);
    if inner == [] then []
    else
      var start := nearest(entry, inner);
      [entry, start] + inner[..|inner| - 1]
  }

  /** The later variant is this one with the start point appended: both give
      `[]` on a collapsed inset, and otherwise differ only by the closing point. */
  lemma ClosedLoopExtendsUnclosed(border: seq<Point>, entry: Point, step: real,
                                  buffer: Buffer, nearest: BorderPath.NearestOnRing)
    ensures var open := BuildPathUnclosed(border, entry, step, buffer, nearest);
            BorderPath.BuildPath(border, entry, step, buffer, nearest)
              == if open == [] then [] else open + [open[1]]
  {
  }

  /** With a well-formed buffer the earlier loop ends at the corner before
      the ring's closing point, and does not append the start point. */
  lemma UnclosedEndsAtLastCorner(border: seq<Point>, entry: Point, step: real,
                                 buffer: Buffer, nearest: BorderPath.NearestOnRing)
    requires WellFormed(buffer)
    requires BorderPath.Inset(border, step, buffer) != []
    ensures var path := BuildPathUnclosed(border, entry, step, buffer, nearest);
            var inner := BorderPath.Inset(border, step, buffer);
            path[|path| - 1] == inner[|inner| - 2]
  {
    var inner := BorderPath.Inset(border, step, buffer);
    assert ClosedRing(inner);
  }

  /** Closing the loop costs exactly the leg from the last corner back to the
      start point. */
  lemma ClosingLegLength(border: seq<Point>, entry: Point, step: real,
                         buffer: Buffer, nearest: BorderPath.NearestOnRing, dist: Metric)
    requires BorderPath.Inset(border, step, buffer) != []
    ensures var open := BuildPathUnclosed(border, entry, step, buffer, nearest);
            PathLength(BorderPath.BuildPath(border, entry, step, buffer, nearest), dist)
              == PathLength(open, dist) + dist(open[|open| - 1], open[1])
  {
    var open := BuildPathUnclosed(border, entry, step, buffer, nearest);
    ClosedLoopExtendsUnclosed(border, entry, step, buffer, nearest);
    PathLengthSnoc(open, open[1], dist);
  }
}

=== FILE: utm.dfy ===
/** UTM grid-zone designation (`src/utm.py`): zone numbers with the Norway
    and Svalbard exceptions, latitude band letters, and the 10 000 000 m
    false northing of the southern hemisphere (DMA/NIMA TM 8358.2, chapter 2).
    The map projection itself is left abstract. */
module Utm {
  import opened Outcomes

  /** Geographic coordinates in degrees, in the source's (longitude, latitude) order. */
  datatype LonLat = LonLat(lon: real, lat: real)

  /** Planar UTM coordinates in metres. */
  datatype EastNorth = EastNorth(easting: real, northing: real)

  /** The false northing added to southern-hemisphere northings. */
  const FalseNorthing: real := 10000000.0

  /** The latitude bands from 80 S upward, 8 degrees each, without I and O;
      the repeated X makes the last band 12 degrees tall. */
  const Bands: string := "CDEFGHJKLMNPQRSTUVWXX"

  /** Python's `int()` on a float: truncation toward zero. */
  function Trunc(x: real): (n: int)
    ensures x >= 0.0 ==> 0 <= n && n as real <= x < n as real + 1.0
    ensures x < 0.0 ==> n <= 0 && n as real - 1.0 < x <= n as real
  {
    if x >= 0.0 then x.Floor else -((-x).Floor)
  }

  /** Truncation never decreases as its argument grows. */
  lemma TruncMonotone(x: real, y: real)
    requires x <= y
    ensures Trunc(x) <= Trunc(y)
  {
    if 0.0 <= x {
      assert Trunc(x) as real <= x <= y < Trunc(y) as real + 1.0;
    } else if y < 0.0 {
      assert Trunc(x) as real - 1.0 < x <= y <= Trunc(y) as real;
    }
  }

  /** `zone`: the UTM zone number of a position. */
  function Zone(c: LonLat): (z: int)
    ensures 56.0 <= c.lat < 64.0 && 3.0 <= c.lon < 12.0 ==> z == 32
    ensures 72.0 <= c.lat < 84.0 && 0.0 <= c.lon < 42.0 ==>
      && z in {31, 33, 35, 37} && z % 2 == 1
      && (z == 31 <==> c.lon < 9.0)
      && (z == 33 <==> 9.0 <= c.lon < 21.0)
      && (z == 35 <==> 21.0 <= c.lon < 33.0)
      && (z == 37 <==> 33.0 <= c.lon)
    ensures -180.0 <= c.lon < 180.0 ==> 1 <= z <= 60
    ensures !(56.0 <= c.lat < 64.0 && 3.0 <= c.lon < 12.0) && !(72.0 <= c.lat < 84.0 && 0.0 <= c.lon < 42.0)
            && -180.0 <= c.lon ==>
      (z - 1) as real * 6.0 <= c.lon + 180.0 < z as real * 6.0
  {
    if 56.0 <= c.lat < 64.0 && 3.0 <= c.lon < 12.0 then 32
    else if 72.0 <= c.lat < 84.0 && 0.0 <= c.lon < 42.0 then
      if c.lon < 9.0 then 31
      else if c.lon < 21.0 then 33
      else if c.lon < 33.0 then 35
      else 37
    else Trunc((c.lon + 180.0) / 6.0) + 1
  }

  /** The index `letter` reads from the band string. */
  function BandIndex(lat: real): (i: int)
    ensures -80.0 <= lat <= 84.0 ==> 0 <= i <= 20
    ensures -80.0 <= lat ==> (i as real) * 8.0 <= lat + 80.0 < (i as real + 1.0) * 8.0
  {
    Trunc((lat + 80.0) / 8.0)
  }

  /** `letter`: the latitude band of a position. Python indexing wraps a
      negative index from the end of the string and raises IndexError (here
      `None`) past its end. */
  function Letter(c: LonLat): (r: Option<char>)
    ensures -80.0 <= c.lat <= 84.0 ==> r == Some(Bands[BandIndex(c.lat)])
    ensures -80.0 <= c.lat <= 84.0 ==> r.Some? && r.value in Bands && 'C' <= r.value <= 'X'
    ensures r.Some? ==> r.value != 'I' && r.value != 'O'
    ensures 72.0 <= c.lat <= 84.0 ==> r == Some('X')
    ensures c.lat >= 88.0 ==> r.None?
  {
    var i := BandIndex(c.lat);
    if 0 <= i < |Bands| then Some(Bands[i])
    else if -|Bands| <= i < 0 then Some(Bands[|Bands| + i])
    else None
  }

  /** The band string is in alphabetical order. */
  lemma BandsSorted(i: int, j: int)
    requires 0 <= i <= j < |Bands|
    ensures Bands[i] <= Bands[j]
  {
  }

  /** Bands are assigned in order of latitude. */
  lemma LetterMonotone(a: LonLat, b: LonLat)
    requires -80.0 <= a.lat <= b.lat <= 84.0
    ensures Letter(a).value <= Letter(b).value
  {
    TruncMonotone((a.lat + 80.0) / 8.0, (b.lat + 80.0) / 8.0);
    BandsSorted(BandIndex(a.lat), BandIndex(b.lat));
  }

  /** Inside the UTM latitude range, a band letter before N means exactly
      the southern hemisphere; `unproject` relies on this test. */
  lemma SouthernBandsBeforeN(c: LonLat)
    requires -80.0 <= c.lat <= 84.0
    ensures Letter(c).value < 'N' <==> c.lat < 0.0
  {
    var i := BandIndex(c.lat);
    assert Bands[9] == 'M' && Bands[10] == 'N';
    if c.lat < 0.0 {
      assert i <= 9;
      BandsSorted(i, 9);
    } else {
      assert i >= 10;
      BandsSorted(10, i);
    }
  }

  /** Below 88 S the truncated index is negative and Python's indexing wraps
      it from the end of the band string: the south pole gets band X. */
  lemma SouthPoleWrapsToX()
    ensures Letter(LonLat(0.0, -90.0)) == Some('X')
  {
    assert BandIndex(-90.0) == -1;
  }

  /** `project`'s adjustment: a negative raw northing is lifted by the
      false northing. */
  function ShiftNorthing(raw: real): (y: real)
    ensures y == raw || y == raw + FalseNorthing
    ensures y != raw <==> raw < 0.0
    ensures raw >= -FalseNorthing ==> y >= 0.0
  {
    if raw < 0.0 then raw + FalseNorthing else raw
  }

  /** `unproject`'s adjustment: bands before N lose the false northing. */
  function UnshiftNorthing(band: char, y: real): (raw: real)
    ensures raw == y || raw == y - FalseNorthing
    ensures raw != y <==> band < 'N'
  {
    if band < 'N' then y - FalseNorthing else y
  }

  /** A projected position: zone, band letter, easting and (shifted) northing. */
  datatype UtmPoint = UtmPoint(zone: int, band: char, at: EastNorth)

  /** pyproj's forward UTM projection for a zone. */
  type Projection = (int, LonLat) -> EastNorth

  /** pyproj's inverse projection for the converter's zone. */
  type InverseProjection = EastNorth -> LonLat

  /** `project`: zone, band, and the projected point with a negative
      northing lifted by the false northing; `None` when `letter` raises. */
  function Project(c: LonLat, proj: Projection): (r: Option<UtmPoint>)
    ensures r.None? <==> Letter(c).None?
    ensures r.Some? ==>
      var raw := proj(Zone(c), c);
      && r.value.zone == Zone(c)
      && Letter(c) == Some(r.value.band)
      && r.value.at.easting == raw.easting
      && r.value.at.northing == ShiftNorthing(raw.northing)
      && (raw.northing >= -FalseNorthing ==> r.value.at.northing >= 0.0)
  {
    var z := Zone(c);
    match Letter(c)
    case None => None
    case Some(l) =>
      var raw := proj(z, c);
      Some(UtmPoint(z, l, EastNorth(raw.easting, ShiftNorthing(raw.northing))))
  }

  /** The points after `unproject`'s in-place adjustment, and their
      geographic coordinates. */
  datatype Unprojected = Unprojected(adjusted: seq<EastNorth>, wgs: seq<LonLat>)

  /** `unproject`: remove the false northing from every point when the band
      is southern, then apply the inverse projection to each. */
  function Unproject(inverse: InverseProjection, band: char, coords: seq<EastNorth>): (r: Unprojected)
    ensures |r.adjusted| == |coords| && |r.wgs| == |coords|
    ensures forall i :: 0 <= i < |coords| ==> r.adjusted[i].easting == coords[i].easting
    ensures band < 'N' ==> forall i :: 0 <= i < |coords| ==> r.adjusted[i].northing == coords[i].northing - FalseNorthing
    ensures band >= 'N' ==> r.adjusted == coords
    ensures forall i :: 0 <= i < |coords| ==> r.wgs[i] == inverse(r.adjusted[i])
  {
    var adjusted := seq(|coords|, i requires 0 <= i < |coords| =>
                          EastNorth(coords[i].easting, UnshiftNorthing(band, coords[i].northing)));
    Unprojected(adjusted, seq(|coords|, i requires 0 <= i < |coords| => inverse(adjusted[i])))
  }

  /** Inside the UTM latitude range, removing the false northing by band
      undoes adding it by sign, whenever the raw northing is negative
      exactly in the southern hemisphere. */
  lemma NorthingRoundTrip(c: LonLat, raw: real)
    requires -80.0 <= c.lat <= 84.0
    requires raw < 0.0 <==> c.lat < 0.0
    ensures UnshiftNorthing(Letter(c).value, ShiftNorthing(raw)) == raw
  {
    SouthernBandsBeforeN(c);
  }

  /** Projecting a position and unprojecting the result with the band it was
      given returns the position, when the inverse projection inverts the
      forward one and the raw northing's sign matches the hemisphere. */
  lemma ProjectUnprojectRoundTrip(c: LonLat, proj: Projection, inverse: InverseProjection)
    requires -80.0 <= c.lat <= 84.0
    requires inverse(proj(Zone(c), c)) == c
    requires proj(Zone(c), c).northing < 0.0 <==> c.lat < 0.0
    ensures Project(c, proj).Some?
    ensures var p := Project(c, proj).value;
            Unproject(inverse, p.band, [p.at]).wgs == [c]
  {
    var p := Project(c, proj).value;
    var raw := proj(Zone(c), c);
    NorthingRoundTrip(c, raw.northing);
    assert Unproject(inverse, p.band, [p.at]).adjusted[0] == raw;
  }
}
